=== FILE: README.md ===
# Multi-view layout and input routing of FilamentAppWayland

This project models the part of the Filament Wayland sample harness that
is not a call into the engine: how `FilamentAppWayland::Window` lays out its views and
routes pointer and keyboard events to them. `CView` forwards the events to
a camera manipulator.

- **Layout** (`Window::configureCamerasForWindow`). One view gets one
  full-window viewport. Four views get a 2x2 grid built from `width / 2`
  and `height / 2`.
- **Hit test** (`CView::intersects`). A half-open rectangle test.
- **Pointer capture** (`Window::mouseDown/mouseUp/mouseMoved/mouseWheel`).
  The y coordinate is flipped to a bottom-left origin. The first view that
  contains the point takes the capture. It keeps it until a release, or
  until a later press hits a view, which then takes the capture over.
- **Key binding** (`Window::keyDown/keyUp`). Each scancode is bound to the
  view that received its press. The release goes to exactly that view.

The model is functional. A `Routing.Window` value holds:

- the owned, ordered views;
- the window size;
- the last pointer position;
- the captured view, if any;
- a map from scancode to view.

Views are referred to by their index in the view sequence. `None`, or a
missing map entry, stands for a null pointer. Each handler is a pure
function that returns the next window and the calls the manipulators
receive (`Views.Gesture`), in order. Manipulators are shared by reference:
the Depth view forwards to Main's manipulator. So every gesture names the
manipulator it reaches, not the view.

Files:
- `options.dfy`: `Option`.
- `geometry.dfy`: `Viewport` with the C++ field widths, mathematical
  containment, and the hit test as coded.
- `layout.dfy`: the single-view and split rectangles and their tiling.
- `views.dfy`: `CView`'s handlers and the scancode-to-key table.
- `routing.dfy`: the window state, construction, layout application and
  the six event handlers.
- `routing_props.dfy`: runs of events and the properties that span several
  events.

Integer widths are written out where they matter:
- `configureCamerasForWindow` truncates the `size_t` window size to
  `uint32_t` (`Geometry.ToU32`).
- `intersects` computes `left + width` modulo 2^32 (`Geometry.Intersects`).
- The single-view width goes through an `(int)` cast (`Layout.AsInt32`).

Everything else uses unbounded integers.

Behaviours of the code worth knowing:
- Viewports use a bottom-left origin, so Main is the bottom-left cell,
  Depth bottom-right, God top-right and Ortho top-left.
- The odd column goes to Depth and God; the odd row goes to God and Ortho.
- Main and Depth share the main manipulator, and each reports its size to
  it in that order. With an odd width the manipulator is left holding
  Depth's wider size (`Routing.SplitWindowReports`).
- The single-view width clamp `std::max(1, (int) width)` also maps any
  width of 2^31 or more to 1 (`Layout.MainWidth`; `Layout.HugeWidthCollapses`
  is the example of width 2^31).
- The window size is a `size_t` cut to `uint32_t` before the layout. A
  split window 2^32 pixels wide or more is laid out at the cut width, and
  the columns beyond it hit no view (`RoutingProperties.OversizeWindowMissesPoints`).
- The flip `mHeight - y` maps window rows `0 .. h-1` to `h .. 1`. A press
  on the window's top row therefore falls just above every view and is
  ignored (`RoutingProperties.TopRowPressIsIgnored`). For window sizes
  below 2^32, a press on any other row of a split window takes the capture
  (`RoutingProperties.SplitPressRows`).
- A press that hits a view while another view holds the capture moves the
  capture to it. The first view's manipulator never receives a grab end
  (`RoutingProperties.SecondPressStealsCaptureScenario`).
- Ortho has no manipulator. A press on it takes the capture and emits
  nothing, so it can silently take the capture from a view whose grab is
  still running.

`manipulatorKeyFromKeycode` currently maps every scancode to nothing. The
key handlers therefore take the scancode-to-key table as a parameter
(`toKey`). `Views.ManipulatorKeyFromKeycode` is the table as the source
has it, and `RoutingProperties.KeysAreSilentToday` shows that with it no
key ever reaches a manipulator.

## Model

| member | source | states |
|---|---|---|
| Geometry.ToU32 | libs/filamentappwayland/src/FilamentAppWayland.cpp:557-558 | Converting the window size to `uint32_t` keeps sizes below 2^32 and otherwise differs from the size by a multiple of 2^32. |
| Geometry.Intersects | libs/filamentappwayland/src/FilamentAppWayland.cpp:682-688 | With the `uint32_t` sum of `left + width`, the hit test is exactly half-open containment when the end edges do not wrap. With a non-negative corner a hit implies containment, and a zero-width or zero-height viewport contains no point. |
| Geometry.NegativeCornerWraps | libs/filamentappwayland/src/FilamentAppWayland.cpp:683 | With a negative corner the wrapped end edge admits a point that lies outside the true rectangle. |
| Layout.AsInt32 | libs/filamentappwayland/src/FilamentAppWayland.cpp:568 | The `(int)` cast of a `uint32_t` width gives a value congruent to it modulo 2^32. |
| Layout.MainWidth | libs/filamentappwayland/src/FilamentAppWayland.cpp:566-568 | The single-view width is at least 1. It equals the window width for widths in 1 .. 2^31-1, and is 1 for width 0 or widths of 2^31 and up. |
| Layout.SingleLayout | libs/filamentappwayland/src/FilamentAppWayland.cpp:586 | The single viewport sits at the origin, has the window height and the clamped width `MainWidth(width)` (at least 1), never wraps, and covers exactly the window for widths 1 .. 2^31-1. |
| Layout.SplitLayout | libs/filamentappwayland/src/FilamentAppWayland.cpp:578-585 | Main is `{0, 0, w/2, h/2}`; Depth starts at column `w/2` on row 0, God at `(w/2, h/2)`, Ortho at column 0 on row `h/2`. The rectangles never wrap, the column widths and row heights sum to the window size, and the odd column goes to the right cells and the odd row to the top cells. |
| Layout.LayoutFor | libs/filamentappwayland/src/FilamentAppWayland.cpp:564-587 | The layout has one rectangle per view. It is split exactly when there are more than two views. No rectangle wraps or extends above the window. |
| Layout.SplitTiles | libs/filamentappwayland/src/FilamentAppWayland.cpp:578-585 | The split rectangles are pairwise disjoint, and their union is exactly `[0,w) x [0,h)`. |
| Layout.SingleCovers | libs/filamentappwayland/src/FilamentAppWayland.cpp:586 | For widths in 1 .. 2^31-1 the single rectangle covers exactly the window. |
| Layout.ZeroWidthIsClamped | libs/filamentappwayland/src/FilamentAppWayland.cpp:566-568 | Example of `Layout.MainWidth`'s clamp: a zero-width window still gets a one-pixel-wide Main viewport. |
| Layout.HugeWidthCollapses | libs/filamentappwayland/src/FilamentAppWayland.cpp:568 | Example of `Layout.MainWidth`'s clamp: a width of 2^31 becomes negative in the `(int)` cast, so the Main viewport is one pixel wide. |
| Views.NewView | libs/filamentappwayland/include/filamentappwayland/FilamentAppWayland.h:164-168 | A new view has no manipulator and an empty viewport that contains no point. |
| Views.WithManipulator | libs/filamentappwayland/src/FilamentAppWayland.cpp:690-692 | Setting a manipulator changes only the view's manipulator reference. |
| Views.SetViewport | libs/filamentappwayland/src/FilamentAppWayland.cpp:605-611 | Setting a viewport stores the rectangle. The view's manipulator, if any, receives exactly one size report with the new width and height. |
| Views.MouseDown | libs/filamentappwayland/src/FilamentAppWayland.cpp:613-617 | A press makes the view's manipulator, if any, receive one grab begin at the point. The grab pans iff the button is 3. |
| Views.MouseUp | libs/filamentappwayland/src/FilamentAppWayland.cpp:619-623 | A release makes the view's manipulator, if any, receive one grab end. The coordinates are ignored. |
| Views.MouseMoved | libs/filamentappwayland/src/FilamentAppWayland.cpp:625-629 | A move makes the view's manipulator, if any, receive one grab update at the point. |
| Views.MouseWheel | libs/filamentappwayland/src/FilamentAppWayland.cpp:631-635 | A wheel turn makes the view's manipulator, if any, receive one scroll `(0, 0, delta)`. |
| Views.KeyDown | libs/filamentappwayland/src/FilamentAppWayland.cpp:673-680 | A key press is forwarded iff the view has a manipulator and the scancode names a key, and it is forwarded with that key. |
| Views.KeyUp | libs/filamentappwayland/src/FilamentAppWayland.cpp:664-671 | A key release is forwarded iff the view has a manipulator and the scancode names a key, and it is forwarded with that key. |
| Views.KeyUpMirrorsKeyDown | libs/filamentappwayland/src/FilamentAppWayland.cpp:664-680 | On one view, a scancode's release reaches the manipulator its press reached, with the same key. |
| Views.KeyForwardingIsSilent | libs/filamentappwayland/src/FilamentAppWayland.cpp:637-662 | With the source's scancode table `Views.ManipulatorKeyFromKeycode`, which is all disabled, a view forwards no key press or release. |
| Routing.HitTest | libs/filamentappwayland/src/FilamentAppWayland.cpp:438-444 | The search returns the first view in creation order that contains the point. It returns nothing iff no view contains it. |
| Routing.ApplyLayout | libs/filamentappwayland/src/FilamentAppWayland.cpp:581-586 | Each view gets its rectangle. Every view with a manipulator reports that rectangle's size to it, and nothing else is reported; for one view the reports are exactly that view's `setViewport` reports. |
| Routing.ApplyLayoutAppends | libs/filamentappwayland/src/FilamentAppWayland.cpp:581-584 | Laying out two runs of views reports the first run's sizes and then the second's, so reports follow view order. |
| Routing.FourViewReports | libs/filamentappwayland/src/FilamentAppWayland.cpp:581-584 | For four views the reports are Main's, Depth's, God's and Ortho's `setViewport` reports, in that order. |
| Routing.ConfigureCamerasForWindow | libs/filamentappwayland/src/FilamentAppWayland.cpp:554-591 | Only the viewports change, and view i gets the i-th rectangle for the truncated window size. The reports are exactly the views' `setViewport` reports in view order, for one view and for four. |
| Routing.NewWindow | libs/filamentappwayland/src/FilamentAppWayland.cpp:380-416 | Construction makes 1 view, or 4 in split mode, and split layout is chosen exactly then. Main and Depth share the main manipulator, God has the debug one and Ortho has none. The viewports are laid out. There is no capture, the pointer is at (0,0) and no key is bound. |
| Routing.InitialWindow | libs/filamentappwayland/src/FilamentAppWayland.cpp:380-413 | Before the first layout the window has 1 view, or 4 in split mode, with Main and Depth on the main manipulator, God on the debug one and Ortho on none. There is no capture, the pointer is at (0,0) and no key is bound. |
| Routing.SingleWindowReports | libs/filamentappwayland/src/FilamentAppWayland.cpp:398-416 | Single-view construction sends one report: Main's clamped width and the window height, to the main manipulator. |
| Routing.SplitWindowReports | libs/filamentappwayland/src/FilamentAppWayland.cpp:398-416 | Split construction reports `(w/2, h/2)` and then `(w - w/2, h/2)` to the shared main manipulator, then `(w - w/2, h - h/2)` to the debug manipulator, and nothing for Ortho. |
| Routing.SplitReportsOfWiredWindow | libs/filamentappwayland/src/FilamentAppWayland.cpp:578-585 | For any four-view window wired as the constructor wires it, laying out sends Main's and then Depth's size to the main manipulator, then God's to the debug manipulator, and nothing for Ortho. |
| Routing.MouseDown | libs/filamentappwayland/src/FilamentAppWayland.cpp:435-445 | A press at the point flipped by `Routing.Flip` to `(x, h - y)` gives the capture to the first view containing it. That view's manipulator, if any, begins a grab; Ortho has none, so a press there takes the capture silently. With no such view nothing changes and nothing is emitted. |
| Routing.MouseUp | libs/filamentappwayland/src/FilamentAppWayland.cpp:460-467 | A release always clears the capture, whatever the coordinates. Only a captured view ends a grab. |
| Routing.MouseMoved | libs/filamentappwayland/src/FilamentAppWayland.cpp:469-477 | A move records the flipped point as the last pointer position and changes nothing else. It is forwarded only to a captured view, never on hover. |
| Routing.MouseWheel | libs/filamentappwayland/src/FilamentAppWayland.cpp:447-458 | A wheel turn scrolls the captured view, else the first view under the last pointer position, else nothing. The window does not change. |
| Routing.KeyTarget | libs/filamentappwayland/src/FilamentAppWayland.cpp:488-501 | The key target is the capture if there is one, else the first view under the last pointer position. There is none iff no view is there. |
| Routing.KeyDown | libs/filamentappwayland/src/FilamentAppWayland.cpp:479-507 | A repeat of a bound scancode is a no-op. Otherwise the key target receives the press and is bound to the scancode. With no target nothing is sent or bound. |
| Routing.KeyUp | libs/filamentappwayland/src/FilamentAppWayland.cpp:509-516 | A release of an unbound scancode is a no-op. Otherwise exactly the bound view receives it and the scancode is unbound. |
| RoutingProperties.Apply | libs/filamentappwayland/src/FilamentAppWayland.cpp:435-516 | Every event handler keeps the targets valid and leaves the views and window size unchanged. |
| RoutingProperties.Run | libs/filamentappwayland/include/filamentappwayland/FilamentAppWayland.h:226-241 | After any run of events the views are the same owned sequence. The capture and every bound key target still refer into it. |
| RoutingProperties.KeyBindingPersists | libs/filamentappwayland/include/filamentappwayland/FilamentAppWayland.h:240-241 | A bound scancode keeps its view until an event releases that scancode. |
| RoutingProperties.KeyReleaseMirrorsPress | libs/filamentappwayland/src/FilamentAppWayland.cpp:479-516 | Once a press finds a view, the release after any events reaches that same view. Its manipulator receives the matching key release, even if the capture changed in between, and the scancode is then unbound. |
| RoutingProperties.KeyRepeatForwardsOnce | libs/filamentappwayland/src/FilamentAppWayland.cpp:482-486 | Two presses of a scancode have exactly the effect of one. |
| RoutingProperties.KeyUpUndoesKeyDown | libs/filamentappwayland/src/FilamentAppWayland.cpp:479-516 | Pressing and then releasing an unbound scancode restores the window exactly. |
| RoutingProperties.MouseUpUndoesMouseDown | libs/filamentappwayland/src/FilamentAppWayland.cpp:435-467 | Without a prior capture, a press and then a release restore the window. The manipulator whose grab began is the one whose grab ends. |
| RoutingProperties.CaptureHoldsUntilRelease | libs/filamentappwayland/src/FilamentAppWayland.cpp:447-516 | Moves, wheel turns and key events never change the capture. |
| RoutingProperties.CapturedGesturesGoToCapture | libs/filamentappwayland/src/FilamentAppWayland.cpp:447-477 | While a view holds the capture, every move and wheel gesture reaches that view's manipulator and no other. |
| RoutingProperties.ApplyLayoutIgnoresOldViewports | libs/filamentappwayland/src/FilamentAppWayland.cpp:605-611 | The size reports of a layout depend on the manipulators and the new rectangles only. |
| RoutingProperties.ConfigureIsIdempotent | libs/filamentappwayland/src/FilamentAppWayland.cpp:554-591 | Recomputing the layout gives identical views and identical reports. |
| RoutingProperties.TiledHitTest | libs/filamentappwayland/src/FilamentAppWayland.cpp:682-688 | On views laid out on a tiling of the window, the hit test finds a view iff the point is in the window. No point is in two views. |
| RoutingProperties.SplitHitTestIsTotal | libs/filamentappwayland/src/FilamentAppWayland.cpp:557-585 | For any `size_t` window size, every point of the window cut to `uint32_t` hits exactly one view of a split window, and every other point hits none. Below 2^32 that is every window point. |
| RoutingProperties.OversizeWindowMissesPoints | libs/filamentappwayland/src/FilamentAppWayland.cpp:557-558 | In a split window 2^32 pixels wide or wider, the columns from the cut width up to the real width hit no view, and a press there takes no capture. |
| RoutingProperties.SingleHitTestIsTotal | libs/filamentappwayland/src/FilamentAppWayland.cpp:557-586 | When the width cut to `uint32_t` is in 1 .. 2^31-1, Main is hit exactly at the points of the window cut to `uint32_t`; for widths 1 .. 2^31-1 and heights below 2^32 that is every window point. At a cut width of 0 the clamped one-pixel column lies outside the window, and from 2^31 up most of the window hits nothing. |
| RoutingProperties.BelowTopEdge | libs/filamentappwayland/src/FilamentAppWayland.cpp:682-688 | Viewports ending at or below row `h` contain no point of row `h`. |
| RoutingProperties.TopRowPressIsIgnored | libs/filamentappwayland/src/FilamentAppWayland.cpp:437 | A press on window row 0 flips to row `h`. It hits no view, so nothing changes. |
| RoutingProperties.PressNeverEndsAGrab | libs/filamentappwayland/src/FilamentAppWayland.cpp:435-445 | A press emits only grab begins, so a press that moves the capture never ends the earlier grab. |
| RoutingProperties.SecondPressStealsCaptureScenario | libs/filamentappwayland/src/FilamentAppWayland.cpp:435-467 | In an 800x600 split window, a press on Main and then a press on God move the capture to God. The release ends only the debug manipulator's grab. |
| RoutingProperties.StealOnSplit | libs/filamentappwayland/src/FilamentAppWayland.cpp:438-441 | On any window with those viewports and that wiring, the second press overwrites the capture and the three events emit begin, begin, end as above. |
| RoutingProperties.SplitPressCaptures | libs/filamentappwayland/src/FilamentAppWayland.cpp:435-445 | A press on a new split window takes the capture iff its flipped point `(x, h - y)` lies in the window cut to `uint32_t`. |
| RoutingProperties.SplitPressRows | libs/filamentappwayland/src/FilamentAppWayland.cpp:435-445 | For window sizes below 2^32, a press at any column inside the window and any row `1 .. h` of a split window takes the capture. |
| RoutingProperties.SplitScenario | libs/filamentappwayland/src/FilamentAppWayland.cpp:578-585 | An 800x600 split window gets Main (0,0,400,300), Depth (400,0,400,300), God (400,300,400,300) and Ortho (0,300,400,300). |
| RoutingProperties.PressReleaseScenario | libs/filamentappwayland/src/FilamentAppWayland.cpp:435-467 | In an 800x600 single-view window, button 1 at (10,10) captures Main and begins a rotation at (10,590). A release far outside the window ends the grab and clears the capture. |
| RoutingProperties.KeysAreSilentToday | libs/filamentappwayland/src/FilamentAppWayland.cpp:637-680 | With the source's scancode table, no run of events forwards a key to any manipulator. |

## Left out

- `fixupMouseCoordinatesForHdpi` is treated as the identity. As written it divides by uninitialised sizes, because the window-system queries are compiled out. That is undefined behaviour and is not reproduced.
- The flip `mHeight - y` is computed in `size_t` and read back as `ssize_t`. The model uses the mathematical difference, so 64-bit wrap-around is not modelled. It needs coordinates beyond 2^63.
- `mKeyEventTarget[key]` inserts a null entry for a scancode it looks up, and `keyUp` nulls the entry rather than erasing it. The model keeps only non-null entries, which behave identically.
- Camera projections and `lookAt` in `configureCamerasForWindow` and the constructor are left out. They are floating-point calls into the engine. This includes the aspect ratios that divide by an unclamped width or height.
- The manipulators' internals (`grabBegin`, `scroll`, `update`, `getLookAt` and so on) are left out. They belong to the engine; only the calls they receive are recorded, as gestures.
- The scancode-to-key table is a parameter. The source's table is `Views.ManipulatorKeyFromKeycode`, and its disabled entries are not listed.
- Engine bootstrap, materials, IBL and dirt loading, the swap chain, the renderer, frame drawing, view visibility layers, ImGui and the application callbacks are left out. They are calls into the engine or file I/O.
- The disabled UI view and sidebar reservation are compiled-out code and are not modelled.
- `Window::resize` only calls `configureCamerasForWindow` and the application callback, apart from the Apple-only metal-layer resize. The window size never changes after construction, so it is covered by `Routing.ConfigureCamerasForWindow` and `RoutingProperties.ConfigureIsIdempotent`.
- `Timer.hpp` (wall clock) and the scene-setup and Vulkan/SDL bootstrap files are not part of this model.

=== FILE: geometry.dfy ===
/**
  Screen-space rectangles (filament `Viewport`) and the hit test a view runs on
  them. Coordinates use a bottom-left origin. The fields have the C++ widths:
  `left` and `bottom` are `int32_t`, `width` and `height` are `uint32_t`.
*/
module Geometry {

  /** 2^32, the modulus of `uint32_t` arithmetic. */
  const U32_LIMIT: int := 0x1_0000_0000
  /** 2^31, the first value an `int32_t` cannot hold. */
  const I32_LIMIT: int := 0x8000_0000

  type Uint32 = n: int | 0 <= n < U32_LIMIT
  type Int32 = n: int | -I32_LIMIT <= n < I32_LIMIT

  /** Conversion of a `size_t` to `uint32_t`: the high bits are dropped. */
  function ToU32(n: nat): (r: Uint32)
    ensures n < U32_LIMIT ==> r == n
    ensures (n - r) % U32_LIMIT == 0
  {
    n % U32_LIMIT
  }

  /** A filament viewport: its bottom-left corner and its size in pixels. */
  datatype Viewport = Viewport(left: Int32, bottom: Int32, width: Uint32, height: Uint32)
  {
    /** The end edges `left + width` and `bottom + height` fit in 32 unsigned bits. */
    predicate NoWrap()
    {
      0 <= left && 0 <= bottom && left + width < U32_LIMIT && bottom + height < U32_LIMIT
    }
  }

  /** The value a default-constructed viewport holds before any layout. */
  const EmptyViewport: Viewport := Viewport(0, 0, 0, 0)

  /** Half-open containment: `left <= x < left + width` and `bottom <= y < bottom + height`. */
  predicate Contains(v: Viewport, x: int, y: int)
  {
    v.left <= x < v.left + v.width && v.bottom <= y < v.bottom + v.height
  }

  /**
    The hit test of a view as the C++ computes it: `left + width` adds an
    `int32_t` to a `uint32_t`, so the sum is taken modulo 2^32 before the
    64-bit pointer coordinate is compared with it.
  */
  function Intersects(v: Viewport, x: int, y: int): (hit: bool)
    ensures v.NoWrap() ==> (hit <==> Contains(v, x, y))
    ensures 0 <= v.left && 0 <= v.bottom && hit ==> Contains(v, x, y)
    ensures 0 <= v.left && 0 <= v.bottom && (v.width == 0 || v.height == 0) ==> !hit
  {
    x >= v.left && x < (v.left + v.width) % U32_LIMIT
    && y >= v.bottom && y < (v.bottom + v.height) % U32_LIMIT
  }

  /**
    The witness that `Intersects` differs from `Contains` in general: with a
    negative corner the wrapped end edge lies far to the right of the true
    one. No layout of the window produces such a corner.
  */
  lemma NegativeCornerWraps()
    ensures Intersects(Viewport(-1, 0, 0, 1), 5, 0)
    ensures !Contains(Viewport(-1, 0, 0, 1), 5, 0)
  {
  }
}

=== FILE: layout.dfy ===
/**
  The integer viewport arithmetic of `Window::configureCamerasForWindow`:
  one full-window rectangle in single-view mode, a 2x2 grid in split mode.
*/
module Layout {
  import opened Geometry

  /** The point lies in the window `[0, width) x [0, height)`. */
  predicate InWindow(width: int, height: int, x: int, y: int)
  {
    0 <= x < width && 0 <= y < height
  }

  /** Every window point lies in some rectangle, and no point outside the window does. */
  ghost predicate Covers(rects: seq<Viewport>, width: int, height: int)
  {
    forall x, y :: InWindow(width, height, x, y) <==> exists i :: 0 <= i < |rects| && Contains(rects[i], x, y)
  }

  /** No point lies in two of the rectangles. */
  ghost predicate Disjoint(rects: seq<Viewport>)
  {
    forall i, j, x, y :: 0 <= i < j < |rects| && Contains(rects[i], x, y) ==> !Contains(rects[j], x, y)
  }

  /** Split mode is chosen when there are more views than the Main and UI views. */
  predicate IsSplit(viewCount: nat)
  {
    viewCount > 2
  }

  /** `(int) width` for a `uint32_t` width: values from 2^31 up read as negative. */
  function AsInt32(n: Uint32): (r: Int32)
    ensures (r - n) % U32_LIMIT == 0
  {
    if n < I32_LIMIT then n else n - U32_LIMIT
  }

  /**
    The single-view width `std::max(1, (int) width)`, converted back to
    `uint32_t`: never below one pixel, and the window width otherwise,
    except that a width of 2^31 or more collapses to 1 through the cast.
  */
  function MainWidth(width: Uint32): (r: Uint32)
    ensures 1 <= r
    ensures r == width || r == 1
    ensures 1 <= width < I32_LIMIT ==> r == width
    ensures width == 0 || I32_LIMIT <= width ==> r == 1
  {
    var signed := AsInt32(width);
    if signed < 1 then 1 else signed
  }

  /** The single-view rectangle of the Main view. */
  function SingleLayout(width: Uint32, height: Uint32): (r: Viewport)
    ensures r.left == 0 && r.bottom == 0 && r.height == height && 1 <= r.width
    ensures r.width == MainWidth(width)
    ensures r.NoWrap()
    ensures 1 <= width < I32_LIMIT ==> Covers([r], width, height)
  {
    var r := Viewport(0, 0, MainWidth(width), height);
    assert 1 <= width < I32_LIMIT ==> Covers([r], width, height) by {
      if 1 <= width < I32_LIMIT {
        forall x, y ensures InWindow(width, height, x, y) <==> exists i :: 0 <= i < 1 && Contains([r][i], x, y) {
          assert [r][0] == r;
        }
      }
    }
    r
  }

  /**
    The four split-mode rectangles in view order Main, Depth, God, Ortho.
    Main is the bottom-left cell, Depth bottom-right, God top-right and
    Ortho top-left; the odd column goes to the right and the odd row to the top.
  */
  function SplitLayout(width: Uint32, height: Uint32): (r: seq<Viewport>)
    ensures |r| == 4
    ensures forall i :: 0 <= i < 4 ==> r[i].NoWrap()
    ensures r[0].width == width / 2 && r[0].height == height / 2
    ensures r[0].left == 0 && r[0].bottom == 0
    ensures r[1].left == r[0].width && r[1].bottom == 0
    ensures r[2].left == r[0].width && r[2].bottom == r[0].height
    ensures r[3].left == 0 && r[3].bottom == r[0].height
    ensures r[0].width + r[1].width == width && r[3].width + r[2].width == width
    ensures r[0].height + r[3].height == height && r[1].height + r[2].height == height
    ensures r[1].width == r[0].width + width % 2 && r[2].width == r[1].width && r[3].width == r[0].width
    ensures r[3].height == r[0].height + height % 2 && r[2].height == r[3].height && r[1].height == r[0].height
  {
    var vpw := width / 2;
    var vph := height / 2;
    [ Viewport(0, 0, vpw, vph),
      Viewport(vpw, 0, width - vpw, vph),
      Viewport(vpw, vph, width - vpw, height - vph),
      Viewport(0, vph, vpw, height - vph) ]
  }

  /** The rectangles for `viewCount` views, in view order. */
  function LayoutFor(viewCount: nat, width: Uint32, height: Uint32): (r: seq<Viewport>)
    requires viewCount == 1 || viewCount == 4
    ensures |r| == viewCount
    ensures forall i :: 0 <= i < |r| ==> r[i].NoWrap()
    ensures forall i :: 0 <= i < |r| ==> 0 <= r[i].bottom && r[i].bottom + r[i].height <= height
    ensures !IsSplit(viewCount) ==> r == [SingleLayout(width, height)]
    ensures IsSplit(viewCount) ==> r == SplitLayout(width, height)
  {
    if IsSplit(viewCount) then SplitLayout(width, height) else [SingleLayout(width, height)]
  }

  /** The split rectangles tile the window: they cover it exactly and never overlap. */
  lemma SplitTiles(width: Uint32, height: Uint32)
    ensures Covers(SplitLayout(width, height), width, height)
    ensures Disjoint(SplitLayout(width, height))
  {
    var r := SplitLayout(width, height);
    var vpw, vph := width / 2, height / 2;
    assert r[1].left == vpw && r[2].left == vpw && r[3].left == 0;
    assert r[1].bottom == 0 && r[2].bottom == vph && r[3].bottom == vph;
    forall x, y ensures InWindow(width, height, x, y) <==> exists i :: 0 <= i < |r| && Contains(r[i], x, y) {
      if InWindow(width, height, x, y) {
        var i := if x < vpw then (if y < vph then 0 else 3) else (if y < vph then 1 else 2);
        assert Contains(r[i], x, y);
      }
    }
  }

  /** In single-view mode the one rectangle is the whole window as long as the width survives the cast. */
  lemma SingleCovers(width: Uint32, height: Uint32)
    requires 1 <= width < I32_LIMIT
    ensures Covers(LayoutFor(1, width, height), width, height)
    ensures Disjoint(LayoutFor(1, width, height))
  {
  }

  /** A zero-width window still gets a one-pixel-wide Main view. */
  lemma ZeroWidthIsClamped(height: Uint32)
    ensures SingleLayout(0, height).width == 1
  {
  }

  /** A width of 2^31 turns negative in the `(int)` cast and the Main view shrinks to one pixel. */
  lemma HugeWidthCollapses(height: Uint32)
    ensures SingleLayout(I32_LIMIT, height).width == 1
  {
  }
}

=== FILE: options.dfy ===
/** The optional value used for the window's nullable view pointers and manipulators. */
module Options {

  /** `None` plays the part of a null pointer. */
  datatype Option<+T> = None | Some(value: T)
}

=== FILE: routing.dfy ===
/**
  The window's multi-view routing state (`FilamentAppWayland::Window`): the
  ordered views it owns, the last pointer position, the view holding the
  mouse capture, and the view each held scancode was delivered to. Every
  event handler is a pure step from a window to the next window plus the
  gestures the manipulators receive, in order.
*/
module Routing {
  import opened Options
  import opened Geometry
  import Layout
  import V = Views

  /**
    `mViews` is owned and ordered; `mouseTarget` and the values of
    `keyTargets` are indices into it standing for the C++ non-owning
    pointers, with `None` and absence standing for null. `width` and
    `height` are the `size_t` window size, fixed at construction.
  */
  datatype Window = Window(
    views: seq<V.View>,
    width: nat,
    height: nat,
    lastX: int,
    lastY: int,
    mouseTarget: Option<nat>,
    keyTargets: map<V.Scancode, nat>)
  {
    /** The views are those the constructor makes, in creation order. */
    predicate Shaped()
    {
      || (|views| == 1 && views[0].role == V.Main)
      || (|views| == 4 && views[0].role == V.Main && views[1].role == V.Depth
                       && views[2].role == V.God && views[3].role == V.Ortho)
    }

    /** Every non-null target refers to a view of this window. */
    predicate Valid()
    {
      && Shaped()
      && (mouseTarget.Some? ==> mouseTarget.value < |views|)
      && (forall k :: k in keyTargets ==> keyTargets[k] < |views|)
    }
  }

  /** The result of handling one event. */
  datatype Step = Step(window: Window, out: seq<V.Gesture>)

  /** Window-space y (top-left origin) to viewport space (bottom-left origin): `mHeight - y`. */
  function Flip(height: nat, y: int): (fy: int)
    ensures fy + y == height
  {
    height - y
  }

  /** View `i` is the first in creation order whose rectangle contains the point. */
  predicate IsFirstHit(views: seq<V.View>, x: int, y: int, i: nat)
  {
    && i < |views|
    && Intersects(views[i].viewport, x, y)
    && forall j :: 0 <= j < i ==> !Intersects(views[j].viewport, x, y)
  }

  /** No view's rectangle contains the point. */
  predicate NoHit(views: seq<V.View>, x: int, y: int)
  {
    forall j :: 0 <= j < |views| ==> !Intersects(views[j].viewport, x, y)
  }

  /** The search loop the handlers share: the first view that intersects the point, if any. */
  function HitTest(views: seq<V.View>, x: int, y: int): (r: Option<nat>)
    ensures r.None? <==> NoHit(views, x, y)
    ensures r.Some? ==> IsFirstHit(views, x, y, r.value)
  {
    if |views| == 0 then None
    else if Intersects(views[0].viewport, x, y) then Some(0)
    else
      match HitTest(views[1..], x, y)
      case Some(i) => Some(i + 1)
      case None => None
  }

  /**
    Applies `rects` to the views in order, collecting what each view's
    `setViewport` tells its manipulator: one size report per view that has
    a manipulator, and nothing else.
  */
  function ApplyLayout(views: seq<V.View>, rects: seq<Viewport>): (r: (seq<V.View>, seq<V.Gesture>))
    requires |rects| == |views|
    ensures |r.0| == |views|
    ensures forall i :: 0 <= i < |views| ==> r.0[i] == views[i].(viewport := rects[i])
    ensures |r.1| <= |views|
    ensures |views| == 1 ==> r.1 == V.SetViewport(views[0], rects[0]).1
    ensures forall i :: 0 <= i < |views| && views[i].manipulator.Some? ==>
      V.ViewportSet(views[i].manipulator.value, rects[i].width, rects[i].height) in r.1
    ensures forall g :: g in r.1 ==> g.ViewportSet?
    ensures forall g :: g in r.1 ==>
      exists i :: 0 <= i < |views| && views[i].manipulator == Some(g.man) && g.width == rects[i].width && g.height == rects[i].height
  {
    if |views| == 0 then ([], [])
    else
      var (v, out) := V.SetViewport(views[0], rects[0]);
      var (vs, rest) := ApplyLayout(views[1..], rects[1..]);
      assert forall i :: 1 <= i < |views| ==> views[i] == views[1..][i - 1] && rects[i] == rects[1..][i - 1];
      ([v] + vs, out + rest)
  }

  /** Laying out two runs of views reports the first run's sizes, then the second's. */
  lemma {:induction false} ApplyLayoutAppends(views: seq<V.View>, rects: seq<Viewport>, views': seq<V.View>, rects': seq<Viewport>)
    requires |rects| == |views| && |rects'| == |views'|
    ensures ApplyLayout(views + views', rects + rects').1 == ApplyLayout(views, rects).1 + ApplyLayout(views', rects').1
    decreases |views|
  {
    if |views| > 0 {
      assert (views + views')[1..] == views[1..] + views';
      assert (rects + rects')[1..] == rects[1..] + rects';
      ApplyLayoutAppends(views[1..], rects[1..], views', rects');
    } else {
      assert views + views' == views' && rects + rects' == rects';
    }
  }

  /** The size reports of four views, in view order. */
  lemma FourViewReports(views: seq<V.View>, rects: seq<Viewport>)
    requires |views| == 4 && |rects| == 4
    ensures ApplyLayout(views, rects).1 ==
      V.SetViewport(views[0], rects[0]).1 + V.SetViewport(views[1], rects[1]).1
      + V.SetViewport(views[2], rects[2]).1 + V.SetViewport(views[3], rects[3]).1
  {
    assert views == [views[0]] + [views[1]] + [views[2]] + [views[3]];
    assert rects == [rects[0]] + [rects[1]] + [rects[2]] + [rects[3]];
    ApplyLayoutAppends([views[0]] + [views[1]] + [views[2]], [rects[0]] + [rects[1]] + [rects[2]], [views[3]], [rects[3]]);
    ApplyLayoutAppends([views[0]] + [views[1]], [rects[0]] + [rects[1]], [views[2]], [rects[2]]);
    ApplyLayoutAppends([views[0]], [rects[0]], [views[1]], [rects[1]]);
  }

  /**
    `configureCamerasForWindow`: the view rectangles for the current size,
    split iff there are more than two views. Only the viewports change.
  */
  function ConfigureCamerasForWindow(w: Window): (r: Step)
    requires w.Shaped()
    ensures r.window == w.(views := r.window.views)
    ensures |r.window.views| == |w.views|
    ensures forall i :: 0 <= i < |w.views| ==>
      r.window.views[i] == w.views[i].(viewport := Layout.LayoutFor(|w.views|, ToU32(w.width), ToU32(w.height))[i])
    ensures forall g :: g in r.out ==> g.ViewportSet?
    ensures var rects := Layout.LayoutFor(|w.views|, ToU32(w.width), ToU32(w.height));
            && (|w.views| == 1 ==> r.out == V.SetViewport(w.views[0], rects[0]).1)
            && (|w.views| == 4 ==> r.out == V.SetViewport(w.views[0], rects[0]).1 + V.SetViewport(w.views[1], rects[1]).1
                                            + V.SetViewport(w.views[2], rects[2]).1 + V.SetViewport(w.views[3], rects[3]).1)
  {
    var rects := Layout.LayoutFor(|w.views|, ToU32(w.width), ToU32(w.height));
    var laid := ApplyLayout(w.views, rects);
    assert |w.views| == 4 ==> laid.1 == V.SetViewport(w.views[0], rects[0]).1 + V.SetViewport(w.views[1], rects[1]).1
                                        + V.SetViewport(w.views[2], rects[2]).1 + V.SetViewport(w.views[3], rects[3]).1 by {
      if |w.views| == 4 {
        FourViewReports(w.views, rects);
      }
    }
    Step(w.(views := laid.0), laid.1)
  }

  /**
    The `Window` constructor's routing part: Main always; Depth, God and
    Ortho in split mode. Main and Depth share the main manipulator, God has
    the debug manipulator, Ortho has none. The layout is then computed.
  */
  function NewWindow(width: nat, height: nat, splitView: bool): (r: Step)
    ensures r.window.Valid()
    ensures |r.window.views| == (if splitView then 4 else 1)
    ensures Layout.IsSplit(|r.window.views|) <==> splitView
    ensures r.window.views[0].manipulator == Some(V.MainCameraMan)
    ensures splitView ==> && r.window.views[1].manipulator == Some(V.MainCameraMan)
                          && r.window.views[2].manipulator == Some(V.DebugCameraMan)
                          && r.window.views[3].manipulator.None?
    ensures r.window.width == width && r.window.height == height
    ensures forall i :: 0 <= i < |r.window.views| ==>
      r.window.views[i].viewport == Layout.LayoutFor(|r.window.views|, ToU32(width), ToU32(height))[i]
    ensures r.window.mouseTarget.None? && r.window.lastX == 0 && r.window.lastY == 0
    ensures r.window.keyTargets == map[]
  {
    ConfigureCamerasForWindow(InitialWindow(width, height, splitView))
  }

  /** The window the constructor builds before its first layout: views created and wired, routing state empty. */
  function InitialWindow(width: nat, height: nat, splitView: bool): (w: Window)
    ensures w.Valid()
    ensures |w.views| == (if splitView then 4 else 1)
    ensures w.views[0].manipulator == Some(V.MainCameraMan)
    ensures splitView ==> && w.views[1].manipulator == Some(V.MainCameraMan)
                          && w.views[2].manipulator == Some(V.DebugCameraMan)
                          && w.views[3].manipulator.None?
    ensures w.width == width && w.height == height
    ensures w.mouseTarget.None? && w.lastX == 0 && w.lastY == 0 && w.keyTargets == map[]
  {
    var main := V.WithManipulator(V.NewView(V.Main), V.MainCameraMan);
    var views :=
      if splitView then
        [ main,
          V.WithManipulator(V.NewView(V.Depth), V.MainCameraMan),
          V.WithManipulator(V.NewView(V.God), V.DebugCameraMan),
          V.NewView(V.Ortho) ]
      else [main];
    Window(views, width, height, 0, 0, None, map[])
  }

  /** Construction in single-view mode reports Main's size to the main manipulator, once. */
  lemma SingleWindowReports(width: nat, height: nat)
    ensures NewWindow(width, height, false).out
         == [V.ViewportSet(V.MainCameraMan, Layout.MainWidth(ToU32(width)), ToU32(height))]
  {
    var w0 := InitialWindow(width, height, false);
    assert V.SetViewport(w0.views[0], Layout.SingleLayout(ToU32(width), ToU32(height))).1
        == [V.ViewportSet(V.MainCameraMan, Layout.MainWidth(ToU32(width)), ToU32(height))];
  }

  /**
    The split-mode size reports: Main's size and then Depth's to the main
    manipulator, then God's to the debug manipulator.
  */
  function SplitReports(width: Uint32, height: Uint32): seq<V.Gesture>
  {
    [ V.ViewportSet(V.MainCameraMan, width / 2, height / 2),
      V.ViewportSet(V.MainCameraMan, width - width / 2, height / 2),
      V.ViewportSet(V.DebugCameraMan, width - width / 2, height - height / 2) ]
  }

  /**
    Construction in split mode reports Main's and then Depth's size to the
    shared main manipulator, so with an odd width it is left holding the
    wider right column, and God's size to the debug manipulator.
  */
  lemma SplitWindowReports(width: nat, height: nat)
    ensures NewWindow(width, height, true).out == SplitReports(ToU32(width), ToU32(height))
  {
    var w0 := InitialWindow(width, height, true);
    assert NewWindow(width, height, true) == ConfigureCamerasForWindow(w0);
    SplitReportsOfWiredWindow(w0);
  }

  /** The split-mode reports of any window wired as the constructor wires it. */
  lemma SplitReportsOfWiredWindow(w: Window)
    requires w.Shaped() && |w.views| == 4
    requires w.views[0].manipulator == Some(V.MainCameraMan) && w.views[1].manipulator == Some(V.MainCameraMan)
    requires w.views[2].manipulator == Some(V.DebugCameraMan) && w.views[3].manipulator.None?
    ensures ConfigureCamerasForWindow(w).out == SplitReports(ToU32(w.width), ToU32(w.height))
  {
    var w32, h32 := ToU32(w.width), ToU32(w.height);
    var rects := Layout.SplitLayout(w32, h32);
    assert Layout.LayoutFor(4, w32, h32) == rects;
    assert V.SetViewport(w.views[0], rects[0]).1 == [V.ViewportSet(V.MainCameraMan, w32 / 2, h32 / 2)];
    assert V.SetViewport(w.views[1], rects[1]).1 == [V.ViewportSet(V.MainCameraMan, w32 - w32 / 2, h32 / 2)];
    assert V.SetViewport(w.views[2], rects[2]).1 == [V.ViewportSet(V.DebugCameraMan, w32 - w32 / 2, h32 - h32 / 2)];
    assert V.SetViewport(w.views[3], rects[3]).1 == [];
  }

  /**
    `mouseDown`: the first view containing the flipped point takes the
    capture and begins a grab; with no such view nothing changes.
  */
  function MouseDown(w: Window, button: int, x: int, y: int): (r: Step)
    requires w.Valid()
    ensures r.window.Valid()
    ensures NoHit(w.views, x, Flip(w.height, y)) ==> r == Step(w, [])
    ensures !NoHit(w.views, x, Flip(w.height, y)) ==>
      && r.window == w.(mouseTarget := r.window.mouseTarget)
      && r.window.mouseTarget.Some?
      && IsFirstHit(w.views, x, Flip(w.height, y), r.window.mouseTarget.value)
      && r.out == V.MouseDown(w.views[r.window.mouseTarget.value], button, x, Flip(w.height, y))
  {
    var fy := Flip(w.height, y);
    match HitTest(w.views, x, fy)
    case Some(i) => Step(w.(mouseTarget := Some(i)), V.MouseDown(w.views[i], button, x, fy))
    case None => Step(w, [])
  }

  /**
    `mouseUp`: with a capture, the captured view ends its grab and the
    capture is released wherever the pointer is; otherwise nothing happens.
  */
  function MouseUp(w: Window, x: int, y: int): (r: Step)
    requires w.Valid()
    ensures r.window.Valid()
    ensures r.window == w.(mouseTarget := None)
    ensures w.mouseTarget.None? ==> r.out == []
    ensures w.mouseTarget.Some? ==> r.out == V.MouseUp(w.views[w.mouseTarget.value], x, Flip(w.height, y))
  {
    match w.mouseTarget
    case Some(i) => Step(w.(mouseTarget := None), V.MouseUp(w.views[i], x, Flip(w.height, y)))
    case None => Step(w, [])
  }

  /**
    `mouseMoved`: the flipped point becomes the last pointer position; only
    a captured view is told, so hovering emits nothing.
  */
  function MouseMoved(w: Window, x: int, y: int): (r: Step)
    requires w.Valid()
    ensures r.window.Valid()
    ensures r.window == w.(lastX := x, lastY := Flip(w.height, y))
    ensures w.mouseTarget.None? ==> r.out == []
    ensures w.mouseTarget.Some? ==> r.out == V.MouseMoved(w.views[w.mouseTarget.value], x, Flip(w.height, y))
  {
    var fy := Flip(w.height, y);
    var out := match w.mouseTarget
      case Some(i) => V.MouseMoved(w.views[i], x, fy)
      case None => [];
    Step(w.(lastX := x, lastY := fy), out)
  }

  /**
    `mouseWheel`: scrolls the captured view, or else the first view under the
    last pointer position, or nothing. The window does not change.
  */
  function MouseWheel(w: Window, delta: int): (r: Step)
    requires w.Valid()
    ensures r.window == w
    ensures w.mouseTarget.Some? ==> r.out == V.MouseWheel(w.views[w.mouseTarget.value], delta)
    ensures w.mouseTarget.None? && NoHit(w.views, w.lastX, w.lastY) ==> r.out == []
    ensures w.mouseTarget.None? ==> forall i: nat :: IsFirstHit(w.views, w.lastX, w.lastY, i) ==> r.out == V.MouseWheel(w.views[i], delta)
  {
    match w.mouseTarget
    case Some(i) => Step(w, V.MouseWheel(w.views[i], delta))
    case None =>
      match HitTest(w.views, w.lastX, w.lastY)
      case Some(i) => Step(w, V.MouseWheel(w.views[i], delta))
      case None => Step(w, [])
  }

  /** The view a new key press goes to: the capture, else the first view under the pointer. */
  function KeyTarget(w: Window): (r: Option<nat>)
    requires w.Valid()
    ensures w.mouseTarget.Some? ==> r == w.mouseTarget
    ensures w.mouseTarget.None? ==> (r.None? <==> NoHit(w.views, w.lastX, w.lastY))
    ensures w.mouseTarget.None? && r.Some? ==> IsFirstHit(w.views, w.lastX, w.lastY, r.value)
    ensures r.Some? ==> r.value < |w.views|
  {
    if w.mouseTarget.Some? then w.mouseTarget else HitTest(w.views, w.lastX, w.lastY)
  }

  /**
    `keyDown`: a repeat of a held scancode does nothing. Otherwise the key
    target receives the press and is remembered for the release; with no
    target the press is dropped and nothing is remembered.
  */
  function KeyDown(w: Window, scancode: V.Scancode, toKey: V.Scancode -> Option<V.ManipKey>): (r: Step)
    requires w.Valid()
    ensures r.window.Valid()
    ensures r.window == w.(keyTargets := r.window.keyTargets)
    ensures scancode in w.keyTargets ==> r == Step(w, [])
    ensures scancode !in w.keyTargets && KeyTarget(w).None? ==> r == Step(w, [])
    ensures scancode !in w.keyTargets && KeyTarget(w).Some? ==>
      && r.window.keyTargets == w.keyTargets[scancode := KeyTarget(w).value]
      && r.out == V.KeyDown(w.views[KeyTarget(w).value], scancode, toKey)
  {
    if scancode in w.keyTargets then Step(w, [])
    else
      match KeyTarget(w)
      case Some(t) => Step(w.(keyTargets := w.keyTargets[scancode := t]), V.KeyDown(w.views[t], scancode, toKey))
      case None => Step(w, [])
  }

  /**
    `keyUp`: a scancode with no remembered view does nothing; otherwise the
    remembered view receives the release and the scancode is forgotten.
  */
  function KeyUp(w: Window, scancode: V.Scancode, toKey: V.Scancode -> Option<V.ManipKey>): (r: Step)
    requires w.Valid()
    ensures r.window.Valid()
    ensures r.window == w.(keyTargets := w.keyTargets - {scancode})
    ensures scancode !in w.keyTargets ==> r == Step(w, [])
    ensures scancode in w.keyTargets ==> r.out == V.KeyUp(w.views[w.keyTargets[scancode]], scancode, toKey)
  {
    if scancode !in w.keyTargets then Step(w, [])
    else
      var t := w.keyTargets[scancode];
      Step(w.(keyTargets := w.keyTargets - {scancode}), V.KeyUp(w.views[t], scancode, toKey))
  }
}

=== FILE: routing_props.dfy ===
/**
  Properties of the window's routing across sequences of events: views and
  targets stay valid, a key release reaches the view its press reached, the
  capture holds until a release, the split layout makes hit testing total,
  and recomputing the layout changes nothing.
*/
module RoutingProperties {
  import opened Options
  import opened Geometry
  import Layout
  import V = Views
  import opened Routing

  /** One window-system callback. */
  datatype Event =
    | Press(button: int, x: int, y: int)
    | Release(x: int, y: int)
    | Move(x: int, y: int)
    | Wheel(delta: int)
    | KeyPress(scancode: V.Scancode)
    | KeyRelease(scancode: V.Scancode)

  /** Dispatches one event to its handler. */
  function Apply(w: Window, e: Event, toKey: V.Scancode -> Option<V.ManipKey>): (r: Step)
    requires w.Valid()
    ensures r.window.Valid()
    ensures r.window.views == w.views && r.window.width == w.width && r.window.height == w.height
  {
    match e
    case Press(b, x, y) => MouseDown(w, b, x, y)
    case Release(x, y) => MouseUp(w, x, y)
    case Move(x, y) => MouseMoved(w, x, y)
    case Wheel(d) => MouseWheel(w, d)
    case KeyPress(k) => KeyDown(w, k, toKey)
    case KeyRelease(k) => KeyUp(w, k, toKey)
  }

  /** Handles the events in order, concatenating what the manipulators receive. */
  function Run(w: Window, es: seq<Event>, toKey: V.Scancode -> Option<V.ManipKey>): (r: Step)
    requires w.Valid()
    ensures r.window.Valid()
    ensures r.window.views == w.views && r.window.width == w.width && r.window.height == w.height
    decreases |es|
  {
    if |es| == 0 then Step(w, [])
    else
      var first := Apply(w, es[0], toKey);
      var rest := Run(first.window, es[1..], toKey);
      Step(rest.window, first.out + rest.out)
  }

  /** A scancode stays bound to its view until an event releases that scancode. */
  lemma {:induction false} KeyBindingPersists(w: Window, es: seq<Event>, k: V.Scancode, toKey: V.Scancode -> Option<V.ManipKey>)
    requires w.Valid() && k in w.keyTargets
    requires forall i :: 0 <= i < |es| ==> es[i] != KeyRelease(k)
    ensures k in Run(w, es, toKey).window.keyTargets
    ensures Run(w, es, toKey).window.keyTargets[k] == w.keyTargets[k]
    decreases |es|
  {
    if |es| > 0 {
      var first := Apply(w, es[0], toKey);
      assert k in first.window.keyTargets && first.window.keyTargets[k] == w.keyTargets[k];
      KeyBindingPersists(first.window, es[1..], k, toKey);
    }
  }

  /**
    Key symmetry: once a press has found a view, the release of that
    scancode reaches the same view, whatever happens in between (a change
    of capture included). Its manipulator receives the release of the key
    it was pressed with, and the scancode is then forgotten.
  */
  lemma KeyReleaseMirrorsPress(w: Window, k: V.Scancode, es: seq<Event>, toKey: V.Scancode -> Option<V.ManipKey>)
    requires w.Valid() && k !in w.keyTargets && KeyTarget(w).Some?
    requires forall i :: 0 <= i < |es| ==> es[i] != KeyRelease(k)
    ensures var t := KeyTarget(w).value;
            var down := KeyDown(w, k, toKey);
            var up := KeyUp(Run(down.window, es, toKey).window, k, toKey);
            && down.out == V.KeyDown(w.views[t], k, toKey)
            && up.out == V.KeyUp(w.views[t], k, toKey)
            && |up.out| == |down.out|
            && (forall i :: 0 <= i < |down.out| ==> up.out[i] == V.KeyReleased(down.out[i].man, down.out[i].key))
            && k !in up.window.keyTargets
  {
    var down := KeyDown(w, k, toKey);
    KeyBindingPersists(down.window, es, k, toKey);
    V.KeyUpMirrorsKeyDown(w.views[KeyTarget(w).value], k, toKey);
  }

  /** An auto-repeated press is forwarded once: two presses act exactly like one. */
  lemma KeyRepeatForwardsOnce(w: Window, k: V.Scancode, toKey: V.Scancode -> Option<V.ManipKey>)
    requires w.Valid()
    ensures Run(w, [KeyPress(k), KeyPress(k)], toKey) == Run(w, [KeyPress(k)], toKey)
  {
    var first := KeyDown(w, k, toKey);
    assert [KeyPress(k), KeyPress(k)][1..] == [KeyPress(k)];
    assert KeyDown(first.window, k, toKey) == Step(first.window, []);
    assert Run(first.window, [KeyPress(k)], toKey) == Step(first.window, []);
  }

  /** Press then release of a free scancode leaves the window as it was. */
  lemma KeyUpUndoesKeyDown(w: Window, k: V.Scancode, toKey: V.Scancode -> Option<V.ManipKey>)
    requires w.Valid() && k !in w.keyTargets
    ensures KeyUp(KeyDown(w, k, toKey).window, k, toKey).window == w
  {
    assert w.keyTargets - {k} == w.keyTargets;
    if KeyTarget(w).Some? {
      assert w.keyTargets[k := KeyTarget(w).value] - {k} == w.keyTargets;
    }
  }

  /**
    Press then release without a capture leaves the window as it was, and
    the manipulator whose grab began is the one whose grab ends.
  */
  lemma MouseUpUndoesMouseDown(w: Window, button: int, x: int, y: int, x': int, y': int)
    requires w.Valid() && w.mouseTarget.None?
    ensures var down := MouseDown(w, button, x, y);
            var up := MouseUp(down.window, x', y');
            && up.window == w
            && |up.out| == |down.out|
            && (forall i :: 0 <= i < |down.out| ==> up.out[i] == V.GrabEnd(down.out[i].man))
  {
  }

  /** Without presses or releases the capture never changes: moves, wheel and keys leave it alone. */
  lemma {:induction false} CaptureHoldsUntilRelease(w: Window, es: seq<Event>, toKey: V.Scancode -> Option<V.ManipKey>)
    requires w.Valid()
    requires forall i :: 0 <= i < |es| ==> !es[i].Press? && !es[i].Release?
    ensures Run(w, es, toKey).window.mouseTarget == w.mouseTarget
    decreases |es|
  {
    if |es| > 0 {
      var first := Apply(w, es[0], toKey);
      CaptureHoldsUntilRelease(first.window, es[1..], toKey);
    }
  }

  /**
    While a view holds the capture, every pointer gesture of a run of moves
    and wheel turns goes to that view's manipulator and to no other.
  */
  lemma {:induction false} CapturedGesturesGoToCapture(w: Window, es: seq<Event>, toKey: V.Scancode -> Option<V.ManipKey>)
    requires w.Valid() && w.mouseTarget.Some?
    requires forall i :: 0 <= i < |es| ==> es[i].Move? || es[i].Wheel?
    ensures forall g :: g in Run(w, es, toKey).out ==> w.views[w.mouseTarget.value].manipulator == Some(g.man)
    decreases |es|
  {
    if |es| > 0 {
      var first := Apply(w, es[0], toKey);
      assert first.window.mouseTarget == w.mouseTarget;
      CapturedGesturesGoToCapture(first.window, es[1..], toKey);
    }
  }

  /** The size reports of `ApplyLayout` depend on the manipulators and the rectangles only. */
  lemma {:induction false} ApplyLayoutIgnoresOldViewports(views: seq<V.View>, views': seq<V.View>, rects: seq<Viewport>)
    requires |views| == |views'| == |rects|
    requires forall i :: 0 <= i < |views| ==> views'[i] == views[i].(viewport := views'[i].viewport)
    ensures ApplyLayout(views', rects).1 == ApplyLayout(views, rects).1
  {
    if |views| > 0 {
      ApplyLayoutIgnoresOldViewports(views[1..], views'[1..], rects[1..]);
    }
  }

  /** Recomputing the layout for an unchanged size gives the same views and the same reports. */
  lemma ConfigureIsIdempotent(w: Window)
    requires w.Shaped()
    ensures var once := ConfigureCamerasForWindow(w);
            ConfigureCamerasForWindow(once.window) == once
  {
    var once := ConfigureCamerasForWindow(w);
    var twice := ConfigureCamerasForWindow(once.window);
    var rects := Layout.LayoutFor(|w.views|, ToU32(w.width), ToU32(w.height));
    assert twice.window.views == once.window.views;
    ApplyLayoutIgnoresOldViewports(w.views, once.window.views, rects);
  }

  /**
    In a split window every point of the window hits exactly one view and
    every point outside it hits none. The window is the size after the cut
    to `uint32_t`, so a size of 2^32 or more leaves the rest uncovered.
  */
  lemma SplitHitTestIsTotal(width: nat, height: nat, x: int, y: int)
    ensures var w := NewWindow(width, height, true).window;
            && (Layout.InWindow(ToU32(width), ToU32(height), x, y) <==> HitTest(w.views, x, y).Some?)
            && (forall i, j :: 0 <= i < j < |w.views| ==> !(Intersects(w.views[i].viewport, x, y) && Intersects(w.views[j].viewport, x, y)))
  {
    var w := NewWindow(width, height, true).window;
    var rects := Layout.SplitLayout(ToU32(width), ToU32(height));
    Layout.SplitTiles(ToU32(width), ToU32(height));
    TiledHitTest(w.views, rects, ToU32(width), ToU32(height), x, y);
  }

  /**
    A window 2^32 pixels wide or wider is laid out at its width cut to
    `uint32_t`: window columns from that cut width on hit no view, and a
    press there takes no capture.
  */
  lemma OversizeWindowMissesPoints(width: nat, height: nat, button: int, x: int, y: int)
    requires ToU32(width) <= x < width && 0 < y <= height
    ensures var w := NewWindow(width, height, true).window;
            && HitTest(w.views, x, height - y).None?
            && MouseDown(w, button, x, y).window.mouseTarget.None?
  {
    SplitHitTestIsTotal(width, height, x, height - y);
    SplitPressCaptures(width, height, button, x, y);
  }

  /** Views laid out on a tiling of the window are hit exactly once inside it and never outside. */
  lemma TiledHitTest(views: seq<V.View>, rects: seq<Viewport>, width: Uint32, height: Uint32, x: int, y: int)
    requires |views| == |rects|
    requires forall i :: 0 <= i < |views| ==> views[i].viewport == rects[i] && rects[i].NoWrap()
    requires Layout.Covers(rects, width, height) && Layout.Disjoint(rects)
    ensures Layout.InWindow(width, height, x, y) <==> HitTest(views, x, y).Some?
    ensures forall i, j :: 0 <= i < j < |views| ==> !(Intersects(views[i].viewport, x, y) && Intersects(views[j].viewport, x, y))
  {
    if Layout.InWindow(width, height, x, y) {
      var i :| 0 <= i < |rects| && Contains(rects[i], x, y);
      assert Intersects(views[i].viewport, x, y);
    }
  }

  /**
    In a single-view window the Main view is hit exactly at the points of
    the window, once the cut width survives the `(int)` cast unchanged.
  */
  lemma SingleHitTestIsTotal(width: nat, height: nat, x: int, y: int)
    requires 1 <= ToU32(width) < I32_LIMIT
    ensures var w := NewWindow(width, height, false).window;
            Layout.InWindow(ToU32(width), ToU32(height), x, y) <==> HitTest(w.views, x, y) == Some(0)
  {
    Layout.SingleCovers(ToU32(width), ToU32(height));
    var w := NewWindow(width, height, false).window;
    TiledHitTest(w.views, Layout.LayoutFor(1, ToU32(width), ToU32(height)), ToU32(width), ToU32(height), x, y);
  }

  /**
    The flip maps window rows `0 .. height-1` to `height .. 1`, so a press on
    the top row of the window lands just above every view and is ignored.
  */
  lemma TopRowPressIsIgnored(width: Uint32, height: Uint32, splitView: bool, button: int, x: int)
    ensures var w := NewWindow(width, height, splitView).window;
            MouseDown(w, button, x, 0) == Step(w, [])
  {
    var w := NewWindow(width, height, splitView).window;
    var rects := Layout.LayoutFor(|w.views|, width, height);
    BelowTopEdge(w.views, rects, height, x);
  }

  /** Views whose rectangles end at or below `height` contain no point of row `height`. */
  lemma BelowTopEdge(views: seq<V.View>, rects: seq<Viewport>, height: int, x: int)
    requires |views| == |rects|
    requires forall i :: 0 <= i < |views| ==> views[i].viewport == rects[i] && rects[i].NoWrap()
    requires forall i :: 0 <= i < |rects| ==> rects[i].bottom + rects[i].height <= height
    ensures NoHit(views, x, height)
  {
  }

  /**
    A press that hits a view while another holds the capture moves the
    capture without ending the first grab: a press never emits a grab end.
  */
  lemma PressNeverEndsAGrab(w: Window, button: int, x: int, y: int)
    requires w.Valid()
    ensures forall g :: g in MouseDown(w, button, x, y).out ==> g.GrabBegin?
  {
  }

  /**
    In an 800x600 split window, a press on Main at (10, 500) and then a
    press on God at (790, 10) move the capture to God. The release that
    follows ends only the debug manipulator's grab; the grab begun on the
    main manipulator is never ended.
  */
  lemma SecondPressStealsCaptureScenario()
    ensures var w := NewWindow(800, 600, true).window;
            var first := MouseDown(w, 1, 10, 500);
            var second := MouseDown(first.window, 1, 790, 10);
            var up := MouseUp(second.window, 790, 10);
            && first.window.mouseTarget == Some(0)
            && second.window.mouseTarget == Some(2)
            && first.out + second.out + up.out
               == [ V.GrabBegin(V.MainCameraMan, 10, 100, false),
                    V.GrabBegin(V.DebugCameraMan, 790, 590, false),
                    V.GrabEnd(V.DebugCameraMan) ]
  {
    var w := NewWindow(800, 600, true).window;
    assert w.views[0].viewport == Viewport(0, 0, 400, 300);
    assert w.views[1].viewport == Viewport(400, 0, 400, 300);
    assert w.views[2].viewport == Viewport(400, 300, 400, 300);
    StealOnSplit(w);
  }

  /** The scenario above on any window with the 800x600 split viewports and the constructor's wiring. */
  lemma StealOnSplit(w: Window)
    requires w.Valid() && |w.views| == 4 && w.height == 600 && w.mouseTarget.None?
    requires w.views[0].viewport == Viewport(0, 0, 400, 300) && w.views[0].manipulator == Some(V.MainCameraMan)
    requires w.views[1].viewport == Viewport(400, 0, 400, 300)
    requires w.views[2].viewport == Viewport(400, 300, 400, 300) && w.views[2].manipulator == Some(V.DebugCameraMan)
    ensures var first := MouseDown(w, 1, 10, 500);
            var second := MouseDown(first.window, 1, 790, 10);
            var up := MouseUp(second.window, 790, 10);
            && first.window.mouseTarget == Some(0)
            && second.window.mouseTarget == Some(2)
            && first.out + second.out + up.out
               == [ V.GrabBegin(V.MainCameraMan, 10, 100, false),
                    V.GrabBegin(V.DebugCameraMan, 790, 590, false),
                    V.GrabEnd(V.DebugCameraMan) ]
  {
    assert IsFirstHit(w.views, 10, 100, 0);
    assert IsFirstHit(w.views, 790, 590, 2);
    var first := MouseDown(w, 1, 10, 500);
    assert first.window.mouseTarget == Some(0);
    var second := MouseDown(first.window, 1, 790, 10);
    assert second.window.mouseTarget == Some(2);
  }

  /**
    A press on a split window takes the capture exactly when its flipped
    point lies in the window as cut to `uint32_t`.
  */
  lemma SplitPressCaptures(width: nat, height: nat, button: int, x: int, y: int)
    ensures var w := NewWindow(width, height, true).window;
            MouseDown(w, button, x, y).window.mouseTarget.Some?
            <==> Layout.InWindow(ToU32(width), ToU32(height), x, height - y)
  {
    SplitHitTestIsTotal(width, height, x, height - y);
  }

  /** Below 2^32, any press off the top row of a split window takes the capture. */
  lemma SplitPressRows(width: Uint32, height: Uint32, button: int, x: int, y: int)
    requires 0 <= x < width && 0 < y <= height
    ensures var w := NewWindow(width, height, true).window;
            MouseDown(w, button, x, y).window.mouseTarget.Some?
  {
    SplitPressCaptures(width, height, button, x, y);
  }

  /** The 800x600 split window: four 400x300 quadrants. */
  lemma SplitScenario()
    ensures var w := NewWindow(800, 600, true).window;
            && w.views[0].viewport == Viewport(0, 0, 400, 300)
            && w.views[1].viewport == Viewport(400, 0, 400, 300)
            && w.views[2].viewport == Viewport(400, 300, 400, 300)
            && w.views[3].viewport == Viewport(0, 300, 400, 300)
  {
  }

  /**
    In an 800x600 single-view window, a press of button 1 at (10, 10) takes
    the capture for Main and begins a rotation at the flipped point; the
    release clears the capture even far outside the window.
  */
  lemma PressReleaseScenario()
    ensures var w := NewWindow(800, 600, false).window;
            var down := MouseDown(w, 1, 10, 10);
            var up := MouseUp(down.window, -50, 9000);
            && down.window.mouseTarget == Some(0)
            && down.out == [V.GrabBegin(V.MainCameraMan, 10, 590, false)]
            && up.window.mouseTarget.None?
            && up.out == [V.GrabEnd(V.MainCameraMan)]
  {
    var w := NewWindow(800, 600, false).window;
    assert w.views[0].viewport == Viewport(0, 0, 800, 600);
    assert Intersects(w.views[0].viewport, 10, 590);
  }

  /** With the source's key table, no run of events ever forwards a key to a manipulator. */
  lemma {:induction false} KeysAreSilentToday(w: Window, es: seq<Event>)
    requires w.Valid()
    ensures forall g :: g in Run(w, es, V.ManipulatorKeyFromKeycode).out ==> !g.KeyPressed? && !g.KeyReleased?
    decreases |es|
  {
    if |es| > 0 {
      var first := Apply(w, es[0], V.ManipulatorKeyFromKeycode);
      match es[0] {
        case KeyPress(k) =>
          if k !in w.keyTargets && KeyTarget(w).Some? {
            V.KeyForwardingIsSilent(w.views[KeyTarget(w).value], k);
          }
        case KeyRelease(k) =>
          if k in w.keyTargets {
            V.KeyForwardingIsSilent(w.views[w.keyTargets[k]], k);
          }
        case _ =>
      }
      KeysAreSilentToday(first.window, es[1..]);
    }
  }
}

=== FILE: views.dfy ===
/**
  A view of the window (`CView`): its role, its viewport, and the camera
  manipulator it forwards gestures to, if any. The calls a view makes on
  its manipulator are recorded as emitted `Gesture` values.
*/
module Views {
  import opened Options
  import opened Geometry

  /** The four views the window can create, named by role. */
  datatype Role = Main | Depth | God | Ortho

  /**
    The two manipulators the window builds. Views hold them by reference,
    so two views may forward to the same one: Depth shares Main's.
  */
  datatype Manipulator = MainCameraMan | DebugCameraMan

  /** The manipulator's movement keys. */
  datatype ManipKey = Forward | Left | Backward | Right | Up | Down

  /** A keyboard scancode, a `uint32_t`. */
  type Scancode = Uint32

  /** The button number that starts a pan rather than a rotation. */
  const PAN_BUTTON: int := 3

  /** One call received by a manipulator. */
  datatype Gesture =
    | ViewportSet(man: Manipulator, width: int, height: int)
    | GrabBegin(man: Manipulator, x: int, y: int, pan: bool)
    | GrabEnd(man: Manipulator)
    | GrabUpdate(man: Manipulator, x: int, y: int)
    | Scroll(man: Manipulator, dx: int, dy: int, dz: int)
    | KeyPressed(man: Manipulator, key: ManipKey)
    | KeyReleased(man: Manipulator, key: ManipKey)

  datatype View = View(role: Role, viewport: Viewport, manipulator: Option<Manipulator>)

  /** Every gesture in `out` goes to the manipulator of `v`, and there is one only if `v` has one. */
  predicate SentTo(out: seq<Gesture>, v: View)
  {
    && |out| <= 1
    && (out != [] ==> v.manipulator.Some?)
    && forall g :: g in out ==> v.manipulator == Some(g.man)
  }

  /** A freshly created view: empty viewport and no manipulator. */
  function NewView(role: Role): (v: View)
    ensures v.role == role && v.manipulator.None?
    ensures forall x, y :: !Intersects(v.viewport, x, y)
  {
    View(role, EmptyViewport, None)
  }

  /** `setCameraManipulator`: the view now forwards to `m`. */
  function WithManipulator(v: View, m: Manipulator): (r: View)
    ensures r.manipulator == Some(m)
    ensures r.role == v.role && r.viewport == v.viewport
  {
    v.(manipulator := Some(m))
  }

  /** `setViewport`: records the rectangle and tells the manipulator the new size. */
  function SetViewport(v: View, vp: Viewport): (r: (View, seq<Gesture>))
    ensures r.0 == v.(viewport := vp)
    ensures SentTo(r.1, v) && (v.manipulator.Some? ==> |r.1| == 1)
    ensures forall g :: g in r.1 ==> g.ViewportSet? && g.width == vp.width && g.height == vp.height
  {
    var out := if v.manipulator.Some? then [ViewportSet(v.manipulator.value, vp.width, vp.height)] else [];
    (v.(viewport := vp), out)
  }

  /** Press: a grab begins at the point, panning iff the button is the pan button. */
  function MouseDown(v: View, button: int, x: int, y: int): (out: seq<Gesture>)
    ensures SentTo(out, v) && (v.manipulator.Some? ==> |out| == 1)
    ensures forall g :: g in out ==> g.GrabBegin? && g.x == x && g.y == y && (g.pan <==> button == PAN_BUTTON)
  {
    match v.manipulator
    case Some(m) => [GrabBegin(m, x, y, button == PAN_BUTTON)]
    case None => []
  }

  /** Release: the grab ends; the coordinates play no part. */
  function MouseUp(v: View, x: int, y: int): (out: seq<Gesture>)
    ensures SentTo(out, v) && (v.manipulator.Some? ==> |out| == 1)
    ensures forall g :: g in out ==> g.GrabEnd?
  {
    match v.manipulator
    case Some(m) => [GrabEnd(m)]
    case None => []
  }

  /** Drag: the grab follows the point. */
  function MouseMoved(v: View, x: int, y: int): (out: seq<Gesture>)
    ensures SentTo(out, v) && (v.manipulator.Some? ==> |out| == 1)
    ensures forall g :: g in out ==> g.GrabUpdate? && g.x == x && g.y == y
  {
    match v.manipulator
    case Some(m) => [GrabUpdate(m, x, y)]
    case None => []
  }

  /** Wheel: a scroll along the third axis only. */
  function MouseWheel(v: View, delta: int): (out: seq<Gesture>)
    ensures SentTo(out, v) && (v.manipulator.Some? ==> |out| == 1)
    ensures forall g :: g in out ==> g.Scroll? && g.dx == 0 && g.dy == 0 && g.dz == delta
  {
    match v.manipulator
    case Some(m) => [Scroll(m, 0, 0, delta)]
    case None => []
  }

  /**
    The scancode-to-key table as the source has it today: every entry is
    disabled, so no scancode names a manipulator key.
  */
  function ManipulatorKeyFromKeycode(scancode: Scancode): (key: Option<ManipKey>)
  {
    None
  }

  /** Key press: forwarded only when the view has a manipulator and the scancode names a key. */
  function KeyDown(v: View, scancode: Scancode, toKey: Scancode -> Option<ManipKey>): (out: seq<Gesture>)
    ensures SentTo(out, v)
    ensures out != [] <==> v.manipulator.Some? && toKey(scancode).Some?
    ensures forall g :: g in out ==> g.KeyPressed? && Some(g.key) == toKey(scancode)
  {
    match (v.manipulator, toKey(scancode))
    case (Some(m), Some(k)) => [KeyPressed(m, k)]
    case _ => []
  }

  /** Key release: the mirror image of `KeyDown`. */
  function KeyUp(v: View, scancode: Scancode, toKey: Scancode -> Option<ManipKey>): (out: seq<Gesture>)
    ensures SentTo(out, v)
    ensures out != [] <==> v.manipulator.Some? && toKey(scancode).Some?
    ensures forall g :: g in out ==> g.KeyReleased? && Some(g.key) == toKey(scancode)
  {
    match (v.manipulator, toKey(scancode))
    case (Some(m), Some(k)) => [KeyReleased(m, k)]
    case _ => []
  }

  /** The press and the release of one scancode reach the same manipulator with the same key. */
  lemma KeyUpMirrorsKeyDown(v: View, scancode: Scancode, toKey: Scancode -> Option<ManipKey>)
    ensures |KeyUp(v, scancode, toKey)| == |KeyDown(v, scancode, toKey)|
    ensures forall i :: 0 <= i < |KeyDown(v, scancode, toKey)| ==>
      KeyUp(v, scancode, toKey)[i] == KeyReleased(KeyDown(v, scancode, toKey)[i].man, KeyDown(v, scancode, toKey)[i].key)
  {
  }

  /** With the source's key table no view ever forwards a key. */
  lemma KeyForwardingIsSilent(v: View, scancode: Scancode)
    ensures KeyDown(v, scancode, ManipulatorKeyFromKeycode) == []
    ensures KeyUp(v, scancode, ManipulatorKeyFromKeycode) == []
  {
  }
}
